=== FILE: README.md ===
# fn-switcher: the switching core in Dafny

fn-switcher is a macOS daemon that turns the Fn key into an input-source switcher. Shift+Option can optionally be added as a second trigger. This project models the decision logic of `main.go` and proves properties about it:

- **Switch decision** (`switchInputSource`, `findIndex`). Given the layout list, the active layout, `previousLayout`, the mode (cycle or MRU, most recently used) and the press length, it picks the layout to select. It also computes the new `previousLayout`.
- **Modifier edge detector** (`goKeyCallback`). This is a step function over the press state of both triggers. Each trigger's `time.Timer` becomes a `pending` flag:
  - `Stop()` succeeds exactly when the flag is set, and clears it.
  - A separate "timer fired" event turns a pending timer into a long-press switch.
- **Layout normalisation** (`normalizeLayouts`). Entries are trimmed, blank entries are dropped, and the `com.apple.keylayout.` prefix is added unless it is already there.
- **Layered configuration** (`loadEnvVars` and the resolution block of `main`). The values of the environment variables, the explicitly passed flags, the parsed config file and the system's selectable layouts are inputs. Each field takes the first present layer in the order command line > environment > file > default. Fewer than two layouts stops startup.
- **The running switcher** (module `Daemon`). It hands the detector's requests, one at a time, to the switch decision. The system's input-source services are replaced by an active-layout field and a set of selectable layouts.

Modules:

- `Strings`: Go's `TrimSpace`, `HasPrefix`, `Split`, `Join` and `ToLower`, over `seq<char>`.
- `Layouts`: the prefix, `normalizeLayouts` and `findIndex`.
- `Switching`: `switchInputSource`.
- `Keys`: the bit masks, the edge detector, the timer and event traces.
- `Config`: the configuration layers and startup.
- `Daemon`: the composition described above.
- `Wrappers`: `Option`.

## Behaviour worth knowing

Some behaviours of the code are easy to miss. The model keeps them:

- **Duplicate layouts.** `normalizeLayouts` does not remove duplicates, so a list such as `-layouts "ABC,ABC"` is accepted. A repeated layout always moves on from its first occurrence (`Switching.SuccessorAt`, `Switching.ScenarioRepeatedLayout`). For this reason, the cycle-closure properties, the short-press "always moves" property and the long-press properties stated over layouts rather than positions assume a list without repetitions. `Switching.CycleClosureNeedsDistinct` shows that closure fails without this assumption.
- **Long press when the active layout is not in the list.** Here the code selects `layouts[0]` without the skip rule. A long press can then select `previousLayout` even with three layouts configured (`Switching.LongPressUnknownCurrent`). The property that a long press never selects the remembered layout therefore also assumes that the active layout is in the list.
- **Unusable config file.** A config file that cannot be read or parsed is treated like a missing one. A default file is then written in its place (`Config.Start`, `writeDefaultConfig`).
- **Explicitly passed empty flags.** A flag passed with an empty value still decides its field. `-layouts ""` gives an empty list and stops startup; it does not fall through to the environment (`Config.ScenarioEmptyLayoutsFlag`). `-shortcut ""` disables the shortcut.
- **No lock.** No lock protects `switchInputSource` or the press flags, although the timer callbacks run on other goroutines. The model handles one event at a time, and a timer's firing is one such event.

## Model

| member | source | states |
|---|---|---|
| Strings.TrimSpace | main.go:359 | The result starts and ends with a non-space (Go's `unicode.IsSpace` set). It is the whole input when the input is already trimmed, and empty exactly when the input is all white space. |
| Strings.TrimSpaceInfix | main.go:359 | What `TrimSpace` keeps is the part of the input between a leading run and a trailing run of white space. |
| Strings.Split | main.go:571 | Splitting at commas gives at least one piece, even for "". No piece contains a comma, and joining the pieces with commas gives the input back. |
| Strings.SplitJoin | main.go:320 | Splitting the comma-join of comma-free pieces gives back exactly those pieces. |
| Strings.ToLower | main.go:333-346 | Lower-casing keeps the length and works character by character: each character is replaced by its lower case (`LowerRune`). |
| Strings.LowerNoCapitals | main.go:333-346 | After lower-casing no ASCII capital remains, and every character without a lower case is kept. |
| Strings.LowerTwice | main.go:346 | Lower-casing is idempotent: lower-casing twice gives the same string as lower-casing once. |
| Strings.LowerKeepsSpace | main.go:346 | Lower-casing a character neither creates nor removes white space. |
| Strings.LowerKeepsTrimmed | main.go:346 | Lower-casing a trimmed string keeps it trimmed, so the order of `ToLower` and `TrimSpace` does not matter for the result's ends. |
| Layouts.Qualify | main.go:363-365 | A trimmed, non-empty entry comes out as a full layout id: prefixed and trimmed. An entry that already has the prefix is kept as is; otherwise the entry follows the prefix. |
| Layouts.NormalizeEntry | main.go:358-366 | One raw entry contributes nothing exactly when it is blank. Otherwise it contributes one full layout id. |
| Layouts.NormalizeLayouts | main.go:356-369 | The output is no longer than the input. Every output element is non-empty, trimmed and starts with `com.apple.keylayout.`. |
| Layouts.NormalizeAppend | main.go:356-369 | Normalising a concatenation is the concatenation of the normalised parts. So the output is the entry-wise image of the input, in order. |
| Layouts.NormalizeKeepsIds | main.go:363-366 | A list made only of full, trimmed ids is returned unchanged. |
| Layouts.NormalizeIdempotent | main.go:356-369 | Normalising twice gives the same list as normalising once. |
| Layouts.NormalizeKeepsEntry | main.go:356-369 | Every non-blank input entry appears in the output in its trimmed, qualified form. An entry that already is a full, trimmed id appears verbatim. |
| Layouts.FindIndex | main.go:371-378 | The result is -1 exactly when the value is absent. Otherwise it is an index holding the value, and no smaller index holds it. |
| Layouts.FindIndexFirst | main.go:371-378 | Also in a list with repetitions, the index found for the element at position i is i when that is its first occurrence. |
| Layouts.DistinctFirst | main.go:371-378 | In a list without repetitions, every position is the first occurrence of its element. |
| Layouts.FindIndexDistinct | main.go:371-378 | In a list without repetitions, the index found for the element at position i is i. |
| Switching.Successor | main.go:385-390 | The next layout is always a member of the list. It is `layouts[0]` when the active layout is not in the list. |
| Switching.SkipPrevious | main.go:393-402 | The long-press candidate is always a member of the list, and `layouts[0]` when the active layout is not in the list. Otherwise it is the next layout, unless that one is the remembered layout and more than two layouts are configured. In that case it is the layout one position further on. |
| Switching.SwitchInputSource | main.go:380-421 | Cycle mode selects the next layout and leaves `previousLayout` unchanged. An MRU short press with a non-empty remembered layout different from the active one returns to it. Any other MRU short press selects the next layout, and an MRU long press selects the skipping candidate. Both MRU paths set `previousLayout` to the active layout. The target is a configured layout, except when an MRU short press returns to the remembered layout. When the active layout is unknown, every path except that return selects `layouts[0]`. |
| Switching.NextIsMod | main.go:397-399 | The wrap-around step used by every path is `(i + 1) % len(layouts)`: the next index, or 0 after the last. |
| Switching.SuccessorAt | main.go:385-390 | When position i is the first occurrence of its layout, the successor of that layout is position i+1, wrapping to 0 after the last. This holds in lists with repetitions too, so a repeated layout always moves on from its first occurrence. |
| Switching.CycleSteps | main.go:384-390 | From position i, k cycle-mode presses that stay before the end of the list reach position i+k. |
| Switching.CycleWraps | main.go:384-390 | The presses that run past the last layout wrap around to the first one. |
| Switching.CycleClosure | main.go:384-390 | Pressing as many times as there are distinct layouts returns to the starting layout. |
| Switching.CycleClosureNeedsDistinct | main.go:385-390 | With the repeated list [A, B, A], three presses from A end on B, not A. |
| Switching.ShortPressMoves | main.go:404-416 | With two or more distinct layouts, an MRU short press never selects the active layout. |
| Switching.ShortPressToggles | main.go:404-416 | A second short press, made from the layout the first one selected, returns to the starting layout and remembers the layout in between. |
| Switching.LongPressThirdLayout | main.go:391-403 | Assume more than two distinct layouts, with the active one among them. A long press then selects neither the remembered layout nor the active one, and it remembers the active one. |
| Switching.LongPressTwoLayouts | main.go:397-401 | With exactly two distinct layouts, a long press selects the other layout, whatever is remembered. |
| Switching.LongPressPosition | main.go:391-403 | When position i is the first occurrence of the active layout (always so without repetitions), a long press from position i selects position i+1, wrapping around. If that position holds the remembered layout and more than two layouts are configured, it selects the position after it. |
| Switching.ShortPressFallbackPosition | main.go:405-411 | When position i is the first occurrence of the active layout (always so without repetitions), with nothing remembered or the active layout remembered, a short press from position i selects position i+1, wrapping around, and remembers position i. |
| Switching.ScenarioShortFallback | main.go:405-411 | In MRU mode with L = [A, B, C], A active and nothing remembered, a short press selects B. |
| Switching.ScenarioLongPressNext | main.go:397-401 | In MRU mode with L = [A, B, C, D], A active and C remembered, a long press selects B. |
| Switching.ScenarioLongPressSkips | main.go:397-401 | In MRU mode with L = [A, B, C], A active and B remembered, a long press skips B and selects C. |
| Switching.LongPressUnknownCurrent | main.go:393-396 | When the active layout is not in [X, Y, Z] and X is remembered, a long press selects X. |
| Switching.SeededFirstShortPress | main.go:596 | With the startup seed `previousLayout = layouts[1]`, the first short press made from `layouts[0]` selects `layouts[1]`. |
| Switching.ScenarioMruShort | main.go:412-415 | In MRU mode with L = [X, Y, Z], Y remembered and X active, a short press selects Y and remembers X. |
| Switching.ScenarioCycleWraps | main.go:384-390 | In cycle mode with L = [X, Y, Z] and Z active, a press wraps to X. |
| Switching.ScenarioRepeatedLayout | main.go:385-390 | In cycle mode with L = [A, B, A, C, D] and A active, a press selects B, the layout after A's first occurrence, and not C. |
| Keys.CallbackFlags | main.go:16-18 | Cutting the 64-bit event flags to the 32-bit word the callback receives loses nothing the triggers test. Fn is held exactly when bit 0x80_0000 of the raw flags is set. The chord is held exactly when the raw flags, masked with shift, control, option, command and fn, show shift and option only. |
| Keys.ShiftOptionExactly | main.go:200-202 | The chord is held exactly when shift and option are down and control, command and fn are up. |
| Keys.LocksIgnored | main.go:152-153 | The caps-lock and numeric-pad bits neither block nor cause either trigger. |
| Keys.ChordExcludesFn | main.go:153 | The Shift+Option chord is never held while Fn is held. |
| Keys.Edge | main.go:180-193 | After the event, the trigger's press flag equals whether it is held now. A press edge switches at once in cycle mode and arms the timer silently in MRU mode. An MRU release stops the timer and emits a short switch exactly when the timer was still pending. Otherwise nothing is emitted and the timer is untouched. The invariant "pending only while held, never in cycle mode" is preserved. |
| Keys.KeyCallback | main.go:173-218 | `fnPressed` follows the Fn bit. `shiftOptionPressed` follows the chord when the shortcut is enabled and is untouched otherwise. A flags event never emits a long press, emits at most two switches, and emits only Fn switches while the shortcut is disabled. |
| Keys.Fire | main.go:184-186 | A firing timer emits one long-press switch exactly when it was still pending, then is no longer pending. The press flag and the other trigger are untouched. |
| Keys.StepBalanced | main.go:180-193 | For one trigger, one event raises (switches emitted + pending timer) by exactly one on a press edge and leaves it unchanged otherwise. The press flag tracks the flags word. |
| Keys.ExactlyOnce | main.go:178-217 | Over any event sequence, the switches emitted for a trigger plus its pending timer equal the press edges in the flag snapshots plus the timer pending at the start. |
| Keys.SwitchPerPress | main.go:178-217 | From process start, once a trigger is released, it has caused exactly as many switches as it was pressed. In MRU mode each press gives one switch, short or long; in cycle mode each press gives one immediate switch. |
| Keys.DisabledShortcutSilent | main.go:196-198 | With the shortcut disabled, the Shift+Option state never changes and no switch is ever attributed to it. |
| Keys.CallbackPerTrigger | main.go:177-217 | In a callback, Fn, and Shift+Option when the shortcut is enabled, each end in the state the shared edge rules give for their own previous state and whether they are held now. Each causes exactly the switches those rules emit for it. |
| Keys.TriggersIndependent | main.go:177-217 | Fn's new state and Fn's switches do not depend on Shift+Option's state. With the shortcut enabled, Shift+Option's new state and switches do not depend on Fn's state either. |
| Config.TrimEntries | main.go:320-326 | Every kept entry is trimmed and non-empty, and none is added. The result is empty exactly when every entry is blank. |
| Config.EnvLayouts | main.go:319-330 | An unset FN_SWITCHER_LAYOUTS gives no layouts. Otherwise every entry is trimmed, non-empty and free of commas. |
| Config.EnvLayoutsLikeCommandLine | main.go:571-573 | Normalising the environment's pre-trimmed list gives the same layouts as normalising the raw comma-separated pieces, as the command-line path does. |
| Config.ParseCycle | main.go:332-343 | FN_SWITCHER_CYCLE gives true exactly for "1" or any letter case of "true". It gives false exactly for "0" or any letter case of "false". It is ignored otherwise. |
| Config.ShortcutName | main.go:346 | A shortcut name is the trimmed raw value with every character lower-cased, so it has the trimmed value's length. It is empty exactly when the raw value is blank. It equals "shift+option" exactly when the trimmed raw value matches "shift+option" in any letter case. |
| Config.ShortcutNameIdempotent | main.go:554-562 | Reading a name twice gives the same as reading it once. So the environment layer, already trimmed and lower-cased when loaded, is read like the command-line and file layers, which `main` trims and lower-cases itself. |
| Config.LoadEnvVars | main.go:315-354 | There is no environment layer exactly when no layouts remain, the cycle value is not recognised and the shortcut variable is unset. When the layer exists, its fields are the parsed layouts, the parsed cycle value and the trimmed, lower-cased shortcut. |
| Config.FirstPresent | main.go:545-578 | The priority rule: the result is the value of the first present layer, or the default when no layer is present. |
| Config.ResolveCycle | main.go:545-552 | Cycle mode is the first present layer of: the flag if passed, a recognised environment value, a file value. The default is MRU. |
| Config.ResolveShortcut | main.go:554-562 | The shortcut name is the first present layer of: the flag if passed (even blank), a non-empty environment name, a non-empty file name. The default is none. |
| Config.ResolveLayouts | main.go:569-578 | The layouts are the first present layer of: the flag if passed (even blank), a non-empty environment list, a non-empty file list. The default is the selectable system layouts. Any list that is not the default consists of full layout ids. |
| Config.Start | main.go:545-596 | Startup stops, listing the available layouts, exactly when fewer than two layouts resolve. The unknown-shortcut warning is carried by both outcomes, because `main` issues it before counting the layouts. Otherwise the settings carry the resolved layouts and the resolved cycle mode, and `previousLayout` is seeded with `layouts[1]`. The shortcut is enabled exactly when the resolved name is "shift+option", and any other non-empty name is reported as it was resolved. A default config file is written exactly when no file was loaded. |
| Config.CommandLineWins | main.go:545-578 | When all three flags are passed, the environment, the file and the system layouts have no influence. |
| Config.CommandLineLayoutsWin | main.go:570-571 | A command-line list "x,y" of two non-blank names resolves to the two qualified names in order, whatever the other layers hold. |
| Config.ShortNamesOnCommandLine | main.go:570-575 | A command line such as `-layouts A,B`, with two one-character names, gives the prefixed A and B in order, whatever the environment, the file and the system hold. |
| Config.ScenarioUnknownShortcut | main.go:563-567 | "Control+Option" leaves the chord disabled and is reported as "control+option". Startup proceeds. |
| Config.ScenarioEmptyLayoutsFlag | main.go:570-588 | An explicitly passed empty `-layouts` wins over the environment and stops startup. |
| Daemon.Commit | main.go:380-421 | One switch records the history. If the system accepts the target, it becomes active; if the system refuses, the target is reported and the active layout stays. The history is not rolled back either way. |
| Daemon.CommitAll | main.go:180-217 | Committing no request changes nothing, and committing one request is one `Commit`. The key state is left alone, and there is at most one refusal per request. |
| Daemon.CommitAllAppend | main.go:180-217 | Committing two batches of requests in a row is committing their concatenation. Each request reads the state the previous one left, and refusals are reported in order. |
| Daemon.TapIsShortPress | main.go:184-191 | In MRU mode a quick Fn tap returns to the remembered layout, remembers the one it left, and ends idle. |
| Daemon.TwoTapsToggle | main.go:404-416 | Right after startup from the first layout, two Fn taps go to the second layout and back. |
| Daemon.HoldIsLongPress | main.go:184-191 | Holding Fn until its timer fires makes the long-press switch once; the release that follows switches no more. |

## Left out

- The Objective-C part: the CoreGraphics event tap, the Carbon input-source enumeration and selection, and the C buffers. These are foreign calls. Their results are inputs: the active layout, the `selectable` set, and the `available` list of system layouts. The 4096-byte and 256-byte buffer truncations are not modelled.
- `time.AfterFunc`, the 500 ms delay and real concurrency. A timer is a pending flag with an atomic stop. Its firing is an explicit event, so the model assumes events are handled one at a time.
- File I/O and JSON: `configFilePath`, `loadConfigFile` and `createDefaultConfig`. The parsed file is an input (`FileLoad`). The warning `main` prints for a file that cannot be read or parsed is not carried: that file is simply treated as missing. Writing the default file is reduced to the `writeDefaultConfig` flag; the file's content is not modelled.
- `flag` parsing and `flag.Visit`, the usage and version text, the startup banner, and the `-list`, `-get` and `-set` subcommands. These are I/O and user interface. The explicitly passed flags are an input (`CommandLine`).
- Strings.ToLower: lowers A-Z and the two non-ASCII characters whose lower case is ASCII (U+0130 and U+212A). Every other character is kept unchanged. Comparisons against ASCII words ("shift+option", "true", "false") are therefore exact. The text of the unknown-shortcut warning can differ from Go's for other non-ASCII capitals.
- Keys.Edge: the switch requests carry the trigger that caused them. The source does not record this; the tag only makes the per-trigger count possible.

=== FILE: Config.dfy ===
/**
 Layered configuration: `loadEnvVars` (main.go:315-354) with the values of
 the environment variables as inputs, and the per-field cascade in `main`
 (main.go:545-596) that resolves cycle mode, the shortcut and the layout
 list from the command line, the environment, the config file and the
 defaults, and refuses to start with fewer than two layouts.
 */
module Config {
  import opened Wrappers
  import opened Strings
  import opened Layouts

  /** The `config` record: the parsed JSON file, and also the environment
      layer. A nil `*bool` is `None`; a missing string is "". */
  datatype ConfigLayer = ConfigLayer(layouts: seq<string>, cycle: Option<bool>, shortcut: string)

  /** The outcome of `loadConfigFile`. A file that cannot be read or parsed
      is treated like a missing one; the warning `main` prints for it is
      not part of this model. */
  datatype FileLoad = NoFile | Unreadable | Loaded(config: ConfigLayer)
  {
    function Layer(): Option<ConfigLayer>
    {
      if Loaded? then Some(config) else None
    }
  }

  /** What `os.Getenv` returns for FN_SWITCHER_LAYOUTS, FN_SWITCHER_CYCLE and
      FN_SWITCHER_SHORTCUT; "" when a variable is unset. */
  datatype Environment = Environment(layouts: string, cycle: string, shortcut: string)

  /** The flags given explicitly on the command line (`flag.Visit`), with
      their values; `None` for a flag that was not passed. */
  datatype CommandLine = CommandLine(layouts: Option<string>, cycle: Option<bool>, shortcut: Option<string>)

  /** The trimmed, non-blank entries of `parts`, in order. */
  function TrimEntries(parts: seq<string>): (r: seq<string>)
    ensures |r| <= |parts|
    ensures forall i :: 0 <= i < |r| ==> r[i] != [] && Trimmed(r[i])
    ensures (forall i :: 0 <= i < |parts| ==> AllSpace(parts[i])) <==> r == []
  {
    if parts == [] then []
    else
      var p := TrimSpace(parts[0]);
      (if p == [] then [] else [p]) + TrimEntries(parts[1..])
  }

  /** FN_SWITCHER_LAYOUTS as `loadEnvVars` reads it: split at commas,
      trimmed, blank entries dropped. */
  function EnvLayouts(val: string): (r: seq<string>)
    ensures val == "" ==> r == []
    ensures forall i :: 0 <= i < |r| ==> r[i] != [] && Trimmed(r[i]) && ',' !in r[i]
  {
    if val == "" then [] else
      var r := TrimEntries(Split(val, ','));
      assert forall i :: 0 <= i < |r| ==> ',' !in r[i] by {
        TrimEntriesFrom(Split(val, ','));
      }
      r
  }

  /** Every entry `TrimEntries` keeps is the trimmed form of an input entry,
      so a character no input entry holds is in no output entry. */
  lemma {:induction false} TrimEntriesFrom(parts: seq<string>)
    requires forall i :: 0 <= i < |parts| ==> ',' !in parts[i]
    ensures forall i :: 0 <= i < |TrimEntries(parts)| ==> ',' !in TrimEntries(parts)[i]
  {
    if parts != [] {
      TrimEntriesFrom(parts[1..]);
      TrimKeepsOut(parts[0], ',');
    }
  }

  /** Trimming only removes characters. */
  lemma {:induction false} TrimKeepsOut(s: string, c: char)
    requires c !in s
    ensures c !in TrimSpace(s)
  {
  }

  /** The environment's layout list needs no trimming of its own: normalizing
      it gives the same list as normalizing the raw comma-separated pieces,
      as the command-line path does. */
  lemma {:induction false} EnvLayoutsLikeCommandLine(val: string)
    ensures NormalizeLayouts(EnvLayouts(val)) == NormalizeLayouts(Split(val, ','))
  {
    if val != "" {
      var parts := Split(val, ',');
      assert EnvLayouts(val) == TrimEntries(parts);
      NormalizeTrimEntries(parts);
    }
  }

  lemma {:induction false} NormalizeTrimEntries(parts: seq<string>)
    ensures NormalizeLayouts(TrimEntries(parts)) == NormalizeLayouts(parts)
  {
    if parts != [] {
      var p := TrimSpace(parts[0]);
      var head := if p == [] then [] else [p];
      NormalizeTrimEntries(parts[1..]);
      NormalizeAppend(head, TrimEntries(parts[1..]));
      if p != [] {
        assert NormalizeLayouts(head) == NormalizeEntry(p) + NormalizeLayouts([]);
      }
    }
  }

  /** `s` equals the lower-case ASCII word `word` ignoring case. */
  predicate LowerEquals(s: string, word: string)
  {
    |s| == |word| && forall i :: 0 <= i < |s| ==> LowerRune(s[i]) == word[i]
  }

  /** FN_SWITCHER_CYCLE: `true`/`1` and `false`/`0` in any letter case;
      anything else, including surrounding blanks, is ignored. */
  function ParseCycle(val: string): (r: Option<bool>)
    ensures r == Some(true) <==> LowerEquals(val, "true") || val == "1"
    ensures r == Some(false) <==> LowerEquals(val, "false") || val == "0"
  {
    if val == "" then None
    else
      var v := ToLower(val);
      if v == "true" || v == "1" then Some(true)
      else if v == "false" || v == "0" then Some(false)
      else None
  }

  /** How every layer reads a shortcut name: trimmed and lower-cased. */
  function ShortcutName(s: string): (r: string)
    ensures |r| == |TrimSpace(s)| <= |s|
    ensures forall i :: 0 <= i < |r| ==> r[i] == LowerRune(TrimSpace(s)[i])
    ensures AllSpace(s) <==> r == ""
    ensures r == ShiftOptionName <==> LowerEquals(TrimSpace(s), ShiftOptionName)
  {
    var t := TrimSpace(s);
    var r := ToLower(t);
    assert LowerEquals(t, ShiftOptionName) ==> r == ShiftOptionName;
    r
  }

  /** Reading a shortcut name is idempotent: the environment layer, already
      trimmed and lower-cased when it is loaded, is unchanged by the reading
      the other layers get. */
  lemma ShortcutNameIdempotent(s: string)
    ensures ShortcutName(ShortcutName(s)) == ShortcutName(s)
  {
    var r := ShortcutName(s);
    LowerKeepsTrimmed(TrimSpace(s));
    assert TrimSpace(r) == r;
    LowerTwice(TrimSpace(s));
  }

  /** `loadEnvVars`: the environment layer, or `None` when none of the three
      variables said anything it recognises. A set but blank shortcut still
      counts as set, with an empty name. */
  function LoadEnvVars(env: Environment): (r: Option<ConfigLayer>)
    ensures r.None? <==> EnvLayouts(env.layouts) == [] && ParseCycle(env.cycle).None? && env.shortcut == ""
    ensures r.Some? ==> r.value.layouts == EnvLayouts(env.layouts)
    ensures r.Some? ==> r.value.cycle == ParseCycle(env.cycle)
    ensures r.Some? ==> r.value.shortcut == ShortcutName(env.shortcut)
  {
    var layouts := EnvLayouts(env.layouts);
    var cycle := if env.cycle != "" then ParseCycle(env.cycle) else None;
    var shortcut := if env.shortcut != "" then ShortcutName(env.shortcut) else "";
    var hasAny := |layouts| > 0 || cycle.Some? || env.shortcut != "";
    if !hasAny then None else Some(ConfigLayer(layouts, cycle, shortcut))
  }

  /** The position of the first present layer, or the number of layers
      when none is present. */
  function FirstSome<T>(layers: seq<Option<T>>): (k: nat)
    ensures k <= |layers|
    ensures k < |layers| ==> layers[k].Some?
    ensures forall j :: 0 <= j < k ==> layers[j].None?
  {
    if layers == [] then 0
    else if layers[0].Some? then 0
    else 1 + FirstSome(layers[1..])
  }

  /** The priority rule: the value of the first layer that is present, or
      the default when none is. */
  function FirstPresent<T>(layers: seq<Option<T>>, default: T): (r: T)
    ensures var k := FirstSome(layers);
            r == if k == |layers| then default else layers[k].value
  {
    if layers == [] then default
    else if layers[0].Some? then layers[0].value
    else
      assert FirstSome(layers) == 1 + FirstSome(layers[1..]);
      FirstPresent(layers[1..], default)
  }

  /** Three layers and a default, written out as the nested choice `main`
      makes. */
  lemma FirstPresentOfThree<T>(a: Option<T>, b: Option<T>, c: Option<T>, default: T)
    ensures FirstPresent([a, b, c], default)
            == if a.Some? then a.value else if b.Some? then b.value else if c.Some? then c.value else default
  {
    var l := [a, b, c];
    assert l[1..] == [b, c];
    assert l[1..][1..] == [c];
    assert l[1..][1..][1..] == [];
  }

  /** The layers of the cycle field, highest priority first: the flag when
      passed, then a recognised value in the environment or the file. */
  function CycleLayers(cli: CommandLine, env: Option<ConfigLayer>, file: Option<ConfigLayer>): seq<Option<bool>>
  {
    [ cli.cycle,
      if env.Some? then env.value.cycle else None,
      if file.Some? then file.value.cycle else None ]
  }

  /** The layers of the shortcut field: the flag when passed (even blank),
      then a non-empty name in the environment or the file. */
  function ShortcutLayers(cli: CommandLine, env: Option<ConfigLayer>, file: Option<ConfigLayer>): seq<Option<string>>
  {
    [ if cli.shortcut.Some? then Some(ShortcutName(cli.shortcut.value)) else None,
      if env.Some? && env.value.shortcut != "" then Some(env.value.shortcut) else None,
      if file.Some? && file.value.shortcut != "" then Some(ShortcutName(file.value.shortcut)) else None ]
  }

  /** The layers of the layouts field: the flag when passed (even blank),
      then a non-empty list in the environment or the file. */
  function LayoutLayers(cli: CommandLine, env: Option<ConfigLayer>, file: Option<ConfigLayer>): seq<Option<seq<string>>>
  {
    [ if cli.layouts.Some? then Some(NormalizeLayouts(Split(cli.layouts.value, ','))) else None,
      if env.Some? && |env.value.layouts| > 0 then Some(NormalizeLayouts(env.value.layouts)) else None,
      if file.Some? && |file.value.layouts| > 0 then Some(NormalizeLayouts(file.value.layouts)) else None ]
  }

  /** Cycle mode: command line, environment, file, and MRU by default. */
  function ResolveCycle(cli: CommandLine, env: Option<ConfigLayer>, file: Option<ConfigLayer>): (r: bool)
    ensures r == FirstPresent(CycleLayers(cli, env, file), false)
  {
    var l := CycleLayers(cli, env, file);
    FirstPresentOfThree(l[0], l[1], l[2], false);
    assert l == [l[0], l[1], l[2]];
    if cli.cycle.Some? then cli.cycle.value
    else if env.Some? && env.value.cycle.Some? then env.value.cycle.value
    else if file.Some? && file.value.cycle.Some? then file.value.cycle.value
    else false
  }

  /** The shortcut name: command line, environment, file, and none by
      default. */
  function ResolveShortcut(cli: CommandLine, env: Option<ConfigLayer>, file: Option<ConfigLayer>): (r: string)
    ensures r == FirstPresent(ShortcutLayers(cli, env, file), "")
  {
    var l := ShortcutLayers(cli, env, file);
    FirstPresentOfThree(l[0], l[1], l[2], "");
    assert l == [l[0], l[1], l[2]];
    if cli.shortcut.Some? then ShortcutName(cli.shortcut.value)
    else if env.Some? && env.value.shortcut != "" then env.value.shortcut
    else if file.Some? && file.value.shortcut != "" then ShortcutName(file.value.shortcut)
    else ""
  }

  /** The layout list: command line, environment, file, and every selectable
      keyboard layout of the system by default. */
  function ResolveLayouts(cli: CommandLine, env: Option<ConfigLayer>, file: Option<ConfigLayer>,
                          available: seq<string>): (r: seq<string>)
    ensures r == FirstPresent(LayoutLayers(cli, env, file), available)
    ensures r == available || forall i :: 0 <= i < |r| ==> IsLayoutId(r[i])
  {
    var l := LayoutLayers(cli, env, file);
    FirstPresentOfThree(l[0], l[1], l[2], available);
    assert l == [l[0], l[1], l[2]];
    if cli.layouts.Some? then NormalizeLayouts(Split(cli.layouts.value, ','))
    else if env.Some? && |env.value.layouts| > 0 then NormalizeLayouts(env.value.layouts)
    else if file.Some? && |file.value.layouts| > 0 then NormalizeLayouts(file.value.layouts)
    else available
  }

  /** The only recognised shortcut. */
  const ShiftOptionName: string := "shift+option"

  /** The configuration the switcher runs with. */
  datatype Settings = Settings(
    layouts: seq<string>,
    cycleMode: bool,
    shortcutEnabled: bool,
    /** The seed of `previousLayout`. */
    previousLayout: string,
    /** A configured shortcut name that is not recognised, for the warning. */
    unknownShortcut: Option<string>,
    /** No usable config file was loaded, so a default one is written. */
    writeDefaultConfig: bool)

  /** Startup either proceeds or stops for lack of layouts, listing the
      available ones. The unknown-shortcut warning is issued before the
      layouts are counted, so a stopped startup carries it too. */
  datatype Startup =
    | Ready(settings: Settings)
    | TooFew(available: seq<string>, unknownShortcut: Option<string>)

  /** Configuration resolution in `main`, after the subcommands: the inputs
      are the explicit flags, the environment, the config file and the
      selectable layouts the system reports. */
  function Start(cli: CommandLine, envVars: Environment, file: FileLoad, available: seq<string>): (r: Startup)
    ensures var layouts := ResolveLayouts(cli, LoadEnvVars(envVars), file.Layer(), available);
            r.TooFew? <==> |layouts| < 2
    ensures r.TooFew? ==> r.available == available
    ensures r.TooFew? ==> var name := ResolveShortcut(cli, LoadEnvVars(envVars), file.Layer());
            && (r.unknownShortcut.Some? <==> name != ShiftOptionName && name != "")
            && (r.unknownShortcut.Some? ==> r.unknownShortcut.value == name)
    ensures r.Ready? ==> var s := r.settings;
            && s.layouts == ResolveLayouts(cli, LoadEnvVars(envVars), file.Layer(), available)
            && s.cycleMode == ResolveCycle(cli, LoadEnvVars(envVars), file.Layer())
            && |s.layouts| >= 2
            && s.previousLayout == s.layouts[1]
            && s.previousLayout in s.layouts
            && (s.shortcutEnabled <==> ResolveShortcut(cli, LoadEnvVars(envVars), file.Layer()) == ShiftOptionName)
            && (s.unknownShortcut.Some? <==> !s.shortcutEnabled && ResolveShortcut(cli, LoadEnvVars(envVars), file.Layer()) != "")
            && (s.unknownShortcut.Some? ==> s.unknownShortcut.value == ResolveShortcut(cli, LoadEnvVars(envVars), file.Layer()))
            && (s.writeDefaultConfig <==> !file.Loaded?)
  {
    var env := LoadEnvVars(envVars);
    var fileCfg := file.Layer();
    var cycleMode := ResolveCycle(cli, env, fileCfg);
    var name := ResolveShortcut(cli, env, fileCfg);
    var enabled := name == ShiftOptionName;
    var unknown := if !enabled && name != "" then Some(name) else None;
    var layouts := ResolveLayouts(cli, env, fileCfg, available);
    if |layouts| < 2 then TooFew(available, unknown)
    else Ready(Settings(layouts, cycleMode, enabled, layouts[1], unknown, fileCfg.None?))
  }

  /** The environment layer only matters when the command line is silent:
      an explicitly passed flag decides its field whatever the other layers
      say, even when its value yields nothing usable. */
  lemma CommandLineWins(cli: CommandLine, env1: Option<ConfigLayer>, env2: Option<ConfigLayer>,
                        file1: Option<ConfigLayer>, file2: Option<ConfigLayer>, available: seq<string>)
    requires cli.cycle.Some? && cli.shortcut.Some? && cli.layouts.Some?
    ensures ResolveCycle(cli, env1, file1) == ResolveCycle(cli, env2, file2) == cli.cycle.value
    ensures ResolveShortcut(cli, env1, file1) == ResolveShortcut(cli, env2, file2)
    ensures ResolveLayouts(cli, env1, file1, available) == ResolveLayouts(cli, env2, file2, [])
  {
  }

  /** A command-line list of two names decides the layouts whatever the
      environment and the file hold: each name trimmed and qualified, in
      order. */
  lemma CommandLineLayoutsWin(x: string, y: string, env: Option<ConfigLayer>, file: Option<ConfigLayer>,
                              available: seq<string>)
    requires ',' !in x && ',' !in y && !AllSpace(x) && !AllSpace(y)
    ensures ResolveLayouts(CommandLine(Some(x + "," + y), None, None), env, file, available)
            == [Qualify(TrimSpace(x)), Qualify(TrimSpace(y))]
  {
    CommandLineLayouts(x + "," + y, env, file, available);
    SplitTwo(x, y);
    NormalizePair(x, y);
    NormalizeEntryOf(x);
    NormalizeEntryOf(y);
  }

  lemma CommandLineLayouts(v: string, env: Option<ConfigLayer>, file: Option<ConfigLayer>, available: seq<string>)
    ensures ResolveLayouts(CommandLine(Some(v), None, None), env, file, available)
            == NormalizeLayouts(Split(v, ','))
  {
  }

  lemma NormalizeEntryOf(p: string)
    requires !AllSpace(p)
    ensures NormalizeEntry(p) == [Qualify(TrimSpace(p))]
  {
  }

  lemma SplitTwo(x: string, y: string)
    requires ',' !in x && ',' !in y
    ensures Split(x + "," + y, ',') == [x, y]
  {
    SplitJoin([x, y], ',');
    assert [x, y][1..] == [y];
    assert Join([x, y], ',') == x + "," + y;
  }

  lemma NormalizePair(x: string, y: string)
    ensures NormalizeLayouts([x, y]) == NormalizeEntry(x) + NormalizeEntry(y)
  {
    assert [x, y][1..] == [y];
    assert NormalizeLayouts([y]) == NormalizeEntry(y) + NormalizeLayouts([]);
  }

  /** Two one-character names on the command line, such as `-layouts A,B`,
      become the two prefixed ids in order, whatever the environment, the
      file and the system hold. */
  lemma ShortNamesOnCommandLine(a: char, b: char, env: Option<ConfigLayer>, file: Option<ConfigLayer>,
                                available: seq<string>)
    requires !IsSpace(a) && !IsSpace(b) && a != ',' && b != ','
    ensures ResolveLayouts(CommandLine(Some([a, ',', b]), None, None), env, file, available)
            == [KeylayoutPrefix + [a], KeylayoutPrefix + [b]]
  {
    QualifyShort([a]);
    QualifyShort([b]);
    assert [a] + "," + [b] == [a, ',', b];
    CommandLineLayoutsWin([a], [b], env, file, available);
  }

  /** A one-character short name gets the prefix. */
  lemma QualifyShort(name: string)
    requires |name| == 1 && !IsSpace(name[0])
    ensures TrimSpace(name) == name && Qualify(name) == KeylayoutPrefix + name
  {
    assert !HasPrefix(name, KeylayoutPrefix);
  }

  /** Scenario: an unrecognised shortcut such as "Control+Option" leaves the
      Shift+Option trigger disabled and is reported, without stopping
      startup. */
  lemma ScenarioUnknownShortcut(available: seq<string>)
    requires |available| >= 2
    ensures var r := Start(CommandLine(None, None, Some("Control+Option")),
                           Environment("", "", ""), NoFile, available);
            r.Ready? && !r.settings.shortcutEnabled
            && r.settings.unknownShortcut == Some("control+option")
  {
    var cli := CommandLine(None, None, Some("Control+Option"));
    var env := LoadEnvVars(Environment("", "", ""));
    assert env == None by {
      assert !LowerEquals("", "true") && !LowerEquals("", "false");
    }
    ControlOptionName();
    assert ResolveShortcut(cli, env, None) == "control+option";
    assert ResolveLayouts(cli, env, None, available) == available;
  }

  lemma ControlOptionName()
    ensures ShortcutName("Control+Option") == "control+option"
  {
    var s := "Control+Option";
    assert Trimmed(s);
    var r := ToLower(s);
    assert |r| == 14;
    forall i | 0 <= i < 14
      ensures r[i] == "control+option"[i]
    {
      assert r[i] == LowerRune(s[i]);
    }
  }

  /** Scenario: `-layouts ""` is an explicit, empty list; it does not fall
      through to the environment and startup stops. */
  lemma ScenarioEmptyLayoutsFlag(available: seq<string>)
    ensures Start(CommandLine(Some(""), None, None), Environment("C,D", "", ""), NoFile, available)
            == TooFew(available, None)
  {
    assert Split("", ',') == [""];
    assert NormalizeLayouts([""]) == NormalizeEntry("") + NormalizeLayouts([]);
  }
}

=== FILE: Daemon.dfy ===
/**
 The running switcher: the edge detector's switch requests handed, one by
 one, to the switch decision, whose target is committed through the
 operating system. The system's input-source services (`getCurrentLayout`,
 `setLayout`) are a stand-in: the active layout is part of the state, and a
 selection succeeds exactly for the layouts in `selectable`.
 */
module Daemon {
  import opened Keys
  import opened Switching
  import opened Config

  /** Everything that changes while the switcher runs. */
  datatype Switcher = Switcher(keys: KeyState, previous: string, active: string)

  /** The state right after startup. */
  function Initial(s: Settings, active: string): Switcher
  {
    Switcher(Idle, s.previousLayout, active)
  }

  /** The state after some events, and the layouts whose selection the
      system refused (each reported once on standard error). */
  datatype After = After(switcher: Switcher, refused: seq<string>)

  /** One call of `switchInputSource`: decide, record the history, then ask
      the system to select the target. A refused selection is reported and
      leaves the active layout alone, but the history is not rolled back. */
  function Commit(s: Settings, d: Switcher, longPress: bool, selectable: set<string>): (r: After)
    requires |s.layouts| > 0
    ensures var decision := SwitchInputSource(s.layouts, d.active, d.previous, s.cycleMode, longPress);
            && r.switcher.previous == decision.previous
            && r.switcher.keys == d.keys
            && (decision.target in selectable ==> r.switcher.active == decision.target && r.refused == [])
            && (decision.target !in selectable ==> r.switcher.active == d.active && r.refused == [decision.target])
  {
    var decision := SwitchInputSource(s.layouts, d.active, d.previous, s.cycleMode, longPress);
    if decision.target in selectable then
      After(d.(previous := decision.previous, active := decision.target), [])
    else
      After(d.(previous := decision.previous), [decision.target])
  }

  /** The requests of one event, committed in order; each one reads the
      active layout afresh. */
  function CommitAll(s: Settings, d: Switcher, requests: seq<Request>, selectable: set<string>): (r: After)
    requires |s.layouts| > 0
    ensures r.switcher.keys == d.keys
    ensures |r.refused| <= |requests|
    ensures requests == [] ==> r == After(d, [])
    ensures |requests| == 1 ==> r == Commit(s, d, requests[0].longPress, selectable)
    decreases |requests|
  {
    if requests == [] then After(d, [])
    else
      var first := Commit(s, d, requests[0].longPress, selectable);
      var rest := CommitAll(s, first.switcher, requests[1..], selectable);
      After(rest.switcher, first.refused + rest.refused)
  }

  /** Committing `a + b` is committing `a`, then `b` from where `a` left
      off; the refusals are reported in order. */
  lemma {:induction false} CommitAllAppend(s: Settings, d: Switcher, a: seq<Request>, b: seq<Request>,
                                           selectable: set<string>)
    requires |s.layouts| > 0
    ensures var ra := CommitAll(s, d, a, selectable);
            var rb := CommitAll(s, ra.switcher, b, selectable);
            CommitAll(s, d, a + b, selectable) == After(rb.switcher, ra.refused + rb.refused)
    decreases |a|
  {
    if a == [] {
      assert a + b == b;
    } else {
      var first := Commit(s, d, a[0].longPress, selectable);
      assert (a + b)[0] == a[0];
      assert (a + b)[1..] == a[1..] + b;
      CommitAllAppend(s, first.switcher, a[1..], b, selectable);
      var ra' := CommitAll(s, first.switcher, a[1..], selectable);
      var rb := CommitAll(s, ra'.switcher, b, selectable);
      assert first.refused + (ra'.refused + rb.refused) == (first.refused + ra'.refused) + rb.refused;
    }
  }

  /** What reaches the running switcher: a modifier or timer event, or the
      user selecting a layout by other means. */
  datatype Input = Key(event: Event) | SelectedElsewhere(layout: string)

  function Handle(s: Settings, d: Switcher, input: Input, selectable: set<string>): After
    requires |s.layouts| > 0
  {
    match input
    case Key(e) =>
      var step := Keys.Step(d.keys, e, s.cycleMode, s.shortcutEnabled);
      CommitAll(s, d.(keys := step.state), step.requests, selectable)
    case SelectedElsewhere(l) => After(d.(active := l), [])
  }

  function HandleAll(s: Settings, d: Switcher, inputs: seq<Input>, selectable: set<string>): After
    requires |s.layouts| > 0
    decreases |inputs|
  {
    if inputs == [] then After(d, [])
    else
      var first := Handle(s, d, inputs[0], selectable);
      var rest := HandleAll(s, first.switcher, inputs[1..], selectable);
      After(rest.switcher, first.refused + rest.refused)
  }

  /** `HandleAll` on a non-empty sequence: the first input, then the rest. */
  lemma HandleAllCons(s: Settings, d: Switcher, input: Input, rest: seq<Input>, selectable: set<string>)
    requires |s.layouts| > 0
    ensures var first := Handle(s, d, input, selectable);
            var tail := HandleAll(s, first.switcher, rest, selectable);
            HandleAll(s, d, [input] + rest, selectable) == After(tail.switcher, first.refused + tail.refused)
  {
    assert ([input] + rest)[0] == input;
    assert ([input] + rest)[1..] == rest;
  }

  /** A quick tap of Fn: pressed, then released before the timer fires. */
  const Tap: seq<Input> := [Key(FlagsChanged(FnKeyFlag)), Key(FlagsChanged(0))]

  /** In MRU mode a quick Fn tap is a short press: the switcher goes back to
      the remembered layout and remembers the one it left. */
  lemma TapIsShortPress(s: Settings, d: Switcher, selectable: set<string>)
    requires |s.layouts| > 0 && !s.cycleMode
    requires d.keys == Idle
    requires d.previous != "" && d.previous != d.active && d.previous in selectable
    ensures var r := HandleAll(s, d, Tap, selectable);
            r.switcher == Switcher(Idle, d.active, d.previous) && r.refused == []
  {
    var down := Handle(s, d, Tap[0], selectable);
    assert down.switcher == d.(keys := KeyState(Press(true, true), Idle.shiftOption)) && down.refused == [];
    var step := Keys.Step(down.switcher.keys, Tap[1].event, false, s.shortcutEnabled);
    assert step.requests == [Switch(Fn, false)] && step.state == Idle;
    var up := Handle(s, down.switcher, Tap[1], selectable);
    assert up == Commit(s, down.switcher.(keys := Idle), false, selectable);
    assert up == After(Switcher(Idle, d.active, d.previous), []);
    HandleAllCons(s, down.switcher, Tap[1], [], selectable);
    assert Tap == [Tap[0]] + [Tap[1]];
    HandleAllCons(s, d, Tap[0], [Tap[1]], selectable);
  }

  /** Right after startup in MRU mode, from the first layout, two Fn taps
      go to the second layout and back, given two distinct selectable
      layouts. */
  lemma TwoTapsToggle(s: Settings, selectable: set<string>)
    requires |s.layouts| >= 2 && !s.cycleMode && s.previousLayout == s.layouts[1]
    requires s.layouts[0] != s.layouts[1] && s.layouts[0] != "" && s.layouts[1] != ""
    requires s.layouts[0] in selectable && s.layouts[1] in selectable
    ensures var first := HandleAll(s, Initial(s, s.layouts[0]), Tap, selectable);
            var second := HandleAll(s, first.switcher, Tap, selectable);
            && first.switcher.active == s.layouts[1]
            && second.switcher.active == s.layouts[0]
            && second.switcher.previous == s.layouts[1]
  {
    TapIsShortPress(s, Initial(s, s.layouts[0]), selectable);
    var first := HandleAll(s, Initial(s, s.layouts[0]), Tap, selectable);
    TapIsShortPress(s, first.switcher, selectable);
  }

  /** Holding Fn until its timer fires makes exactly one long-press switch;
      the release afterwards switches no more. */
  lemma HoldIsLongPress(s: Settings, d: Switcher, selectable: set<string>)
    requires |s.layouts| > 0 && !s.cycleMode
    requires d.keys == Idle
    ensures var hold := [Key(FlagsChanged(FnKeyFlag)), Key(TimerFired(Fn)), Key(FlagsChanged(0))];
            var r := HandleAll(s, d, hold, selectable);
            var decision := SwitchInputSource(s.layouts, d.active, d.previous, false, true);
            && r.switcher.keys == Idle
            && r.switcher.previous == d.active
            && (decision.target in selectable ==> r.switcher.active == decision.target)
  {
    var down, fire, up := Key(FlagsChanged(FnKeyFlag)), Key(TimerFired(Fn)), Key(FlagsChanged(0));
    var d1 := Handle(s, d, down, selectable).switcher;
    assert d1 == d.(keys := KeyState(Press(true, true), Idle.shiftOption));
    var a2 := Handle(s, d1, fire, selectable);
    assert a2 == Commit(s, d1.(keys := KeyState(Press(true, false), Idle.shiftOption)), true, selectable);
    var a3 := Handle(s, a2.switcher, up, selectable);
    assert Keys.Step(a2.switcher.keys, up.event, false, s.shortcutEnabled).requests == [];
    assert a3.switcher == a2.switcher.(keys := Idle);
    HandleAllCons(s, a2.switcher, up, [], selectable);
    HandleAllCons(s, d1, fire, [up], selectable);
    HandleAllCons(s, d, down, [fire, up], selectable);
    assert [down, fire, up] == [down] + ([fire] + [up]);
  }

}

=== FILE: Keys.dfy ===
/**
 The modifier edge detector of `goKeyCallback` (main.go:173-218) as a step
 function over the press state of the two triggers, Fn and Shift+Option.

 Each trigger's `time.Timer` is abstracted as a `pending` flag: arming it on a
 press sets the flag, `Stop()` succeeds exactly when the flag is set and
 clears it, and the timer firing is a separate event that turns a pending
 timer into a long-press switch. A switch request carries the trigger that
 caused it, so that the requests of each trigger can be counted.
 */
module Keys {

  // Modifier bits of the flags word passed to the callback.
  const FnKeyFlag: bv32 := 0x80_0000
  const ShiftFlag: bv32 := 0x2_0000
  const ControlFlag: bv32 := 0x4_0000
  const OptionFlag: bv32 := 0x8_0000
  const CommandFlag: bv32 := 0x10_0000
  /** Shift, control, option, command and fn; caps lock and the numeric-pad
      bit are outside it. */
  const ModifierMask: bv32 := ShiftFlag | ControlFlag | OptionFlag | CommandFlag | FnKeyFlag

  // CoreGraphics' caps-lock (kCGEventFlagMaskAlphaShift) and numeric-pad
  // (kCGEventFlagMaskNumericPad) bits, which the mask leaves out.
  const CapsLockFlag: bv32 := 0x1_0000
  const NumericPadFlag: bv32 := 0x20_0000

  /** The flags word the event tap hands to the callback: the low 32 bits of
      the 64-bit CoreGraphics flags, as the `(int)` cast keeps them. The
      cast loses nothing the triggers look at: both tests read the same
      bits of the raw flags. */
  function CallbackFlags(raw: bv64): (f: bv32)
    ensures FnHeld(f) <==> raw & 0x80_0000 != 0
    ensures ShiftOptionHeld(f) <==> raw & 0x9E_0000 == 0xA_0000
  {
    (raw & 0xFFFF_FFFF) as bv32
  }

  /** `fnNow`: the Fn bit is set, whatever else is held. */
  predicate FnHeld(f: bv32)
  {
    f & FnKeyFlag != 0
  }

  /** `shiftOptionNow`: among the tracked modifiers exactly Shift and Option
      are held. */
  predicate ShiftOptionHeld(f: bv32)
  {
    f & ModifierMask == ShiftFlag | OptionFlag
  }

  /** The Shift+Option chord bit by bit: shift and option down, control,
      command and fn up. */
  lemma ShiftOptionExactly(f: bv32)
    ensures ShiftOptionHeld(f) <==>
            && f & ShiftFlag != 0
            && f & OptionFlag != 0
            && f & ControlFlag == 0
            && f & CommandFlag == 0
            && f & FnKeyFlag == 0
  {
  }

  /** Caps lock and the numeric-pad bit neither block nor cause either
      trigger. */
  lemma LocksIgnored(f: bv32)
    ensures ShiftOptionHeld(f | CapsLockFlag | NumericPadFlag) == ShiftOptionHeld(f)
    ensures FnHeld(f | CapsLockFlag | NumericPadFlag) == FnHeld(f)
  {
  }

  /** Holding Fn together with Shift+Option triggers Fn only. */
  lemma ChordExcludesFn(f: bv32)
    ensures ShiftOptionHeld(f) ==> !FnHeld(f)
  {
  }

  datatype Trigger = Fn | ShiftOption

  /** A call of `switchInputSource(longPress)`, tagged with its trigger. */
  datatype Request = Switch(trigger: Trigger, longPress: bool)

  /** One trigger's state: `fnPressed` / `shiftOptionPressed`, and whether
      its timer is armed and has neither fired nor been stopped. */
  datatype Press = Press(pressed: bool, pending: bool)

  /** The state `goKeyCallback` keeps between calls. */
  datatype KeyState = KeyState(fn: Press, shiftOption: Press)

  /** The state at process start: nothing held, no timer armed. */
  const Idle: KeyState := KeyState(Press(false, false), Press(false, false))

  /** A new state and the switch requests emitted on the way to it. */
  datatype Reaction<S> = Reaction(state: S, requests: seq<Request>)

  /** What holds between events: a timer is pending only while its trigger is
      held, and cycle mode never arms one. */
  predicate Consistent(p: Press, cycleMode: bool)
  {
    (p.pending ==> p.pressed) && (cycleMode ==> !p.pending)
  }

  function Get(k: KeyState, t: Trigger): Press
  {
    match t
    case Fn => k.fn
    case ShiftOption => k.shiftOption
  }

  function Held(t: Trigger, f: bv32): bool
  {
    match t
    case Fn => FnHeld(f)
    case ShiftOption => ShiftOptionHeld(f)
  }

  /** The edge rules shared by both triggers, given the trigger's state
      before the event and whether it is held now. */
  function Edge(p: Press, now: bool, cycleMode: bool, t: Trigger): (r: Reaction<Press>)
    ensures r.state.pressed == now
    ensures Consistent(p, cycleMode) ==> Consistent(r.state, cycleMode)
    ensures |r.requests| <= 1
    ensures forall i :: 0 <= i < |r.requests| ==> r.requests[i] == Switch(t, false)
    // Press edge: cycle mode switches at once, MRU mode arms the timer.
    ensures now && !p.pressed && cycleMode ==> r.requests == [Switch(t, false)]
    ensures now && !p.pressed && !cycleMode ==> r.requests == [] && r.state.pending
    // Release edge in MRU mode: a successful stop is a short press.
    ensures !now && p.pressed && !cycleMode ==>
              !r.state.pending && (r.requests == [Switch(t, false)] <==> p.pending)
              && (!p.pending ==> r.requests == [])
    // No edge, or a release in cycle mode: nothing happens to the timer.
    ensures now == p.pressed || (!now && cycleMode) ==>
              r.requests == [] && r.state.pending == p.pending
  {
    if now && !p.pressed then
      if cycleMode then Reaction(Press(true, p.pending), [Switch(t, false)])
      else Reaction(Press(true, true), [])
    else if !now && p.pressed && !cycleMode then
      // `timer.Stop()` reports whether the timer was still pending.
      Reaction(Press(false, false), if p.pending then [Switch(t, false)] else [])
    else
      Reaction(Press(now, p.pending), [])
  }

  /** `goKeyCallback(flags)`: Fn first, then Shift+Option when the shortcut
      is enabled. */
  function KeyCallback(k: KeyState, flags: bv32, cycleMode: bool, shortcutEnabled: bool): (r: Reaction<KeyState>)
    ensures r.state.fn.pressed == FnHeld(flags)
    ensures shortcutEnabled ==> r.state.shiftOption.pressed == ShiftOptionHeld(flags)
    ensures !shortcutEnabled ==> r.state.shiftOption == k.shiftOption
    ensures forall i :: 0 <= i < |r.requests| ==> !r.requests[i].longPress
    ensures !shortcutEnabled ==> forall i :: 0 <= i < |r.requests| ==> r.requests[i].trigger == Fn
    ensures |r.requests| <= 2
  {
    var fn := Edge(k.fn, FnHeld(flags), cycleMode, Fn);
    if !shortcutEnabled then
      Reaction(KeyState(fn.state, k.shiftOption), fn.requests)
    else
      var so := Edge(k.shiftOption, ShiftOptionHeld(flags), cycleMode, ShiftOption);
      Reaction(KeyState(fn.state, so.state), fn.requests + so.requests)
  }

  /** The timer of trigger `t` fires: a long-press switch if it was still
      pending, nothing if it had been stopped. */
  function Fire(k: KeyState, t: Trigger): (r: Reaction<KeyState>)
    ensures r.requests == (if Get(k, t).pending then [Switch(t, true)] else [])
    ensures Get(r.state, t) == Press(Get(k, t).pressed, false)
    ensures forall u :: u != t ==> Get(r.state, u) == Get(k, u)
  {
    var p := Get(k, t);
    if !p.pending then Reaction(k, [])
    else
      var p' := Press(p.pressed, false);
      match t
      case Fn => Reaction(k.(fn := p'), [Switch(Fn, true)])
      case ShiftOption => Reaction(k.(shiftOption := p'), [Switch(ShiftOption, true)])
  }

  /** What reaches the detector: a flags-changed callback or a timer firing. */
  datatype Event = FlagsChanged(flags: bv32) | TimerFired(trigger: Trigger)

  function Step(k: KeyState, e: Event, cycleMode: bool, shortcutEnabled: bool): Reaction<KeyState>
  {
    match e
    case FlagsChanged(f) => KeyCallback(k, f, cycleMode, shortcutEnabled)
    case TimerFired(t) => Fire(k, t)
  }

  /** The events processed in order, with all requests collected. */
  function Run(k: KeyState, events: seq<Event>, cycleMode: bool, shortcutEnabled: bool): Reaction<KeyState>
    decreases |events|
  {
    if events == [] then Reaction(k, [])
    else
      var first := Step(k, events[0], cycleMode, shortcutEnabled);
      var rest := Run(first.state, events[1..], cycleMode, shortcutEnabled);
      Reaction(rest.state, first.requests + rest.requests)
  }

  /** The number of switch requests caused by trigger `t`. */
  function Count(requests: seq<Request>, t: Trigger): nat
  {
    if requests == [] then 0
    else (if requests[0].trigger == t then 1 else 0) + Count(requests[1..], t)
  }

  lemma {:induction false} CountAppend(a: seq<Request>, b: seq<Request>, t: Trigger)
    ensures Count(a + b, t) == Count(a, t) + Count(b, t)
  {
    if a == [] {
      assert a + b == b;
    } else {
      assert (a + b)[0] == a[0];
      assert (a + b)[1..] == a[1..] + b;
      CountAppend(a[1..], b, t);
    }
  }

  /** The number of presses of `t` in an event sequence, read off the flag
      snapshots alone: snapshots where `t` is held and the previous one (or
      `pressed`, before the first) did not hold it. */
  function Presses(pressed: bool, events: seq<Event>, t: Trigger): nat
    decreases |events|
  {
    if events == [] then 0
    else match events[0]
      case FlagsChanged(f) =>
        (if Held(t, f) && !pressed then 1 else 0) + Presses(Held(t, f), events[1..], t)
      case TimerFired(_) => Presses(pressed, events[1..], t)
  }

  function Pending(p: Press): nat
  {
    if p.pending then 1 else 0
  }

  /** One event keeps the books of `ExactlyOnce` balanced. */
  lemma StepBalanced(k: KeyState, e: Event, cycleMode: bool, shortcutEnabled: bool, t: Trigger)
    requires Consistent(Get(k, t), cycleMode)
    requires t == Fn || shortcutEnabled
    ensures var r := Step(k, e, cycleMode, shortcutEnabled);
            && Consistent(Get(r.state, t), cycleMode)
            && (e.FlagsChanged? ==> Get(r.state, t).pressed == Held(t, e.flags))
            && (e.TimerFired? ==> Get(r.state, t).pressed == Get(k, t).pressed)
            && Count(r.requests, t) + Pending(Get(r.state, t))
               == (if e.FlagsChanged? && Held(t, e.flags) && !Get(k, t).pressed then 1 else 0)
                  + Pending(Get(k, t))
  {
    var r := Step(k, e, cycleMode, shortcutEnabled);
    match e
    case FlagsChanged(f) =>
      var fn := Edge(k.fn, FnHeld(f), cycleMode, Fn);
      if shortcutEnabled {
        var so := Edge(k.shiftOption, ShiftOptionHeld(f), cycleMode, ShiftOption);
        CountAppend(fn.requests, so.requests, t);
      }
    case TimerFired(u) =>
  }

  /** Every press of a trigger yields exactly one switch: the switches
      requested so far for `t`, plus one for a timer still pending, equal the
      presses seen plus one for a timer pending at the start. */
  lemma {:induction false} ExactlyOnce(k: KeyState, events: seq<Event>, cycleMode: bool,
                                       shortcutEnabled: bool, t: Trigger)
    requires Consistent(Get(k, t), cycleMode)
    requires t == Fn || shortcutEnabled
    ensures var r := Run(k, events, cycleMode, shortcutEnabled);
            && Consistent(Get(r.state, t), cycleMode)
            && Count(r.requests, t) + Pending(Get(r.state, t))
               == Presses(Get(k, t).pressed, events, t) + Pending(Get(k, t))
    decreases |events|
  {
    if events != [] {
      var first := Step(k, events[0], cycleMode, shortcutEnabled);
      StepBalanced(k, events[0], cycleMode, shortcutEnabled, t);
      ExactlyOnce(first.state, events[1..], cycleMode, shortcutEnabled, t);
      var rest := Run(first.state, events[1..], cycleMode, shortcutEnabled);
      CountAppend(first.requests, rest.requests, t);
    }
  }

  /** From process start, once the trigger is released again, it has caused
      exactly as many switches as it was pressed. */
  lemma SwitchPerPress(events: seq<Event>, cycleMode: bool, shortcutEnabled: bool, t: Trigger)
    requires t == Fn || shortcutEnabled
    requires !Get(Run(Idle, events, cycleMode, shortcutEnabled).state, t).pressed
    ensures Count(Run(Idle, events, cycleMode, shortcutEnabled).requests, t) == Presses(false, events, t)
  {
    ExactlyOnce(Idle, events, cycleMode, shortcutEnabled, t);
  }

  /** With the shortcut disabled, Shift+Option never causes a switch. */
  lemma {:induction false} DisabledShortcutSilent(k: KeyState, events: seq<Event>, cycleMode: bool)
    requires !k.shiftOption.pending
    ensures var r := Run(k, events, cycleMode, false);
            r.state.shiftOption == k.shiftOption && Count(r.requests, ShiftOption) == 0
    decreases |events|
  {
    if events != [] {
      var first := Step(k, events[0], cycleMode, false);
      DisabledShortcutSilent(first.state, events[1..], cycleMode);
      var rest := Run(first.state, events[1..], cycleMode, false);
      CountAppend(first.requests, rest.requests, ShiftOption);
      if events[0].FlagsChanged? {
        NoneOf(first.requests, ShiftOption);
      }
    }
  }

  lemma {:induction false} NoneOf(requests: seq<Request>, t: Trigger)
    requires forall i :: 0 <= i < |requests| ==> requests[i].trigger != t
    ensures Count(requests, t) == 0
  {
    if requests != [] {
      NoneOf(requests[1..], t);
    }
  }

  lemma {:induction false} AllOf(requests: seq<Request>, t: Trigger)
    requires forall i :: 0 <= i < |requests| ==> requests[i].trigger == t
    ensures Count(requests, t) == |requests|
  {
    if requests != [] {
      AllOf(requests[1..], t);
    }
  }

  /** Each tracked trigger follows the shared edge rules on its own state:
      in a callback, Fn (and Shift+Option when the shortcut is enabled) ends
      in the state `Edge` gives for its own previous state and whether it is
      held now, and causes exactly the switches `Edge` emits for it. */
  lemma CallbackPerTrigger(k: KeyState, flags: bv32, cycleMode: bool, shortcutEnabled: bool, t: Trigger)
    requires t == Fn || shortcutEnabled
    ensures var r := KeyCallback(k, flags, cycleMode, shortcutEnabled);
            var e := Edge(Get(k, t), Held(t, flags), cycleMode, t);
            Get(r.state, t) == e.state && Count(r.requests, t) == |e.requests|
  {
    var fn := Edge(k.fn, FnHeld(flags), cycleMode, Fn);
    if shortcutEnabled {
      var so := Edge(k.shiftOption, ShiftOptionHeld(flags), cycleMode, ShiftOption);
      CountAppend(fn.requests, so.requests, t);
      if t == Fn {
        AllOf(fn.requests, Fn);
        NoneOf(so.requests, Fn);
      } else {
        NoneOf(fn.requests, ShiftOption);
        AllOf(so.requests, ShiftOption);
      }
    } else {
      AllOf(fn.requests, Fn);
    }
  }

  /** The triggers are independent: what each tracked trigger does in a
      callback depends only on its own state, not on the other trigger's. */
  lemma TriggersIndependent(k1: KeyState, k2: KeyState, flags: bv32, cycleMode: bool, shortcutEnabled: bool)
    ensures k1.fn == k2.fn ==>
            && KeyCallback(k1, flags, cycleMode, shortcutEnabled).state.fn
               == KeyCallback(k2, flags, cycleMode, shortcutEnabled).state.fn
            && Count(KeyCallback(k1, flags, cycleMode, shortcutEnabled).requests, Fn)
               == Count(KeyCallback(k2, flags, cycleMode, shortcutEnabled).requests, Fn)
    ensures shortcutEnabled && k1.shiftOption == k2.shiftOption ==>
            && KeyCallback(k1, flags, cycleMode, shortcutEnabled).state.shiftOption
               == KeyCallback(k2, flags, cycleMode, shortcutEnabled).state.shiftOption
            && Count(KeyCallback(k1, flags, cycleMode, shortcutEnabled).requests, ShiftOption)
               == Count(KeyCallback(k2, flags, cycleMode, shortcutEnabled).requests, ShiftOption)
  {
    CallbackPerTrigger(k1, flags, cycleMode, shortcutEnabled, Fn);
    CallbackPerTrigger(k2, flags, cycleMode, shortcutEnabled, Fn);
    if shortcutEnabled {
      CallbackPerTrigger(k1, flags, cycleMode, shortcutEnabled, ShiftOption);
      CallbackPerTrigger(k2, flags, cycleMode, shortcutEnabled, ShiftOption);
    }
  }
}

=== FILE: Layouts.dfy ===
/**
 Layout identifiers and the layout list: the `com.apple.keylayout.` prefix,
 `normalizeLayouts` (main.go:356-369) and `findIndex` (main.go:371-378).
 */
module Layouts {
  import opened Strings

  /** The namespace every keyboard-layout input source id starts with. */
  const KeylayoutPrefix: string := "com.apple.keylayout."

  /** What `normalizeLayouts` produces: a trimmed id carrying the prefix
      (hence never empty). */
  predicate IsLayoutId(s: string)
  {
    HasPrefix(s, KeylayoutPrefix) && Trimmed(s)
  }

  /** No layout occurs twice in the list. */
  predicate Distinct(layouts: seq<string>)
  {
    forall i, j :: 0 <= i < j < |layouts| ==> layouts[i] != layouts[j]
  }

  /** The full id for one trimmed, non-empty entry: the entry itself when it
      already carries the prefix, the prefix followed by it otherwise. */
  function Qualify(p: string): (r: string)
    requires p != [] && Trimmed(p)
    ensures IsLayoutId(r)
    ensures HasPrefix(p, KeylayoutPrefix) ==> r == p
    ensures !HasPrefix(p, KeylayoutPrefix) ==> r[|KeylayoutPrefix|..] == p
  {
    if HasPrefix(p, KeylayoutPrefix) then p
    else
      var r := KeylayoutPrefix + p;
      assert r[..|KeylayoutPrefix|] == KeylayoutPrefix;
      assert r[|r| - 1] == p[|p| - 1];
      r
  }

  /** The contribution of one raw entry: nothing when it is blank, else its
      trimmed, qualified form. */
  function NormalizeEntry(p: string): (r: seq<string>)
    ensures |r| <= 1
    ensures r == [] <==> AllSpace(p)
    ensures forall i :: 0 <= i < |r| ==> IsLayoutId(r[i])
  {
    var t := TrimSpace(p);
    if t == [] then [] else [Qualify(t)]
  }

  /** `normalizeLayouts`: trims every entry, drops the blank ones and adds the
      prefix where it is missing, keeping the order. */
  function NormalizeLayouts(raw: seq<string>): (r: seq<string>)
    ensures |r| <= |raw|
    ensures forall i :: 0 <= i < |r| ==> IsLayoutId(r[i])
  {
    if raw == [] then [] else NormalizeEntry(raw[0]) + NormalizeLayouts(raw[1..])
  }

  /** Normalizing a concatenation normalizes each part: together with
      `NormalizeEntry` this says the output is the entry-wise image of the
      input, in order. */
  lemma {:induction false} NormalizeAppend(a: seq<string>, b: seq<string>)
    ensures NormalizeLayouts(a + b) == NormalizeLayouts(a) + NormalizeLayouts(b)
  {
    if a == [] {
      assert a + b == b;
    } else {
      assert (a + b)[0] == a[0];
      assert (a + b)[1..] == a[1..] + b;
      NormalizeAppend(a[1..], b);
    }
  }

  /** An entry that is already a full, trimmed id is kept as it is. */
  lemma NormalizeEntryKeepsId(p: string)
    requires IsLayoutId(p)
    ensures NormalizeEntry(p) == [p]
  {
  }

  /** A list of full ids comes out unchanged. */
  lemma {:induction false} NormalizeKeepsIds(raw: seq<string>)
    requires forall i :: 0 <= i < |raw| ==> IsLayoutId(raw[i])
    ensures NormalizeLayouts(raw) == raw
  {
    if raw != [] {
      NormalizeEntryKeepsId(raw[0]);
      NormalizeKeepsIds(raw[1..]);
      assert [raw[0]] + raw[1..] == raw;
    }
  }

  /** Normalizing twice is normalizing once. */
  lemma {:induction false} NormalizeIdempotent(raw: seq<string>)
    ensures NormalizeLayouts(NormalizeLayouts(raw)) == NormalizeLayouts(raw)
  {
    NormalizeKeepsIds(NormalizeLayouts(raw));
  }

  /** Every non-blank input entry is represented in the output, and an entry
      that already is a full, trimmed id appears verbatim. */
  lemma {:induction false} NormalizeKeepsEntry(raw: seq<string>, k: nat)
    requires k < |raw| && !AllSpace(raw[k])
    ensures Qualify(TrimSpace(raw[k])) in NormalizeLayouts(raw)
    ensures IsLayoutId(raw[k]) ==> raw[k] in NormalizeLayouts(raw)
  {
    if k == 0 {
      assert NormalizeLayouts(raw)[0] == Qualify(TrimSpace(raw[0]));
    } else {
      NormalizeKeepsEntry(raw[1..], k - 1);
      assert raw[1..][k - 1] == raw[k];
    }
  }

  /** `findIndex`: -1 when `val` is absent, otherwise the first position
      holding it. */
  function FindIndex(list: seq<string>, val: string): (r: int)
    ensures -1 <= r < |list|
    ensures r == -1 <==> val !in list
    ensures r >= 0 ==> list[r] == val
    ensures forall j :: 0 <= j < r ==> list[j] != val
  {
    if list == [] then -1
    else if list[0] == val then 0
    else
      var k := FindIndex(list[1..], val);
      if k == -1 then -1 else k + 1
  }

  /** The index of a layout is the position of its first occurrence, also
      in a list with repetitions. */
  lemma FindIndexFirst(list: seq<string>, i: nat)
    requires i < |list| && list[i] !in list[..i]
    ensures FindIndex(list, list[i]) == i
  {
  }

  /** In a list without repetitions every position is a first occurrence. */
  lemma DistinctFirst(list: seq<string>, i: nat)
    requires Distinct(list) && i < |list|
    ensures list[i] !in list[..i]
  {
  }

  /** In a list without repetitions a layout's index is its position. */
  lemma FindIndexDistinct(list: seq<string>, i: nat)
    requires Distinct(list) && i < |list|
    ensures FindIndex(list, list[i]) == i
  {
  }
}

=== FILE: Strings.dfy ===
/**
 The few Go `strings` primitives the switcher relies on, over `seq<char>`:
 `TrimSpace`, `HasPrefix`, `Split` on a one-character separator, `Join` and
 `ToLower`.
 */
module Strings {

  /** Go's `unicode.IsSpace`: the ASCII white space characters and the
      Unicode White_Space code points above 0x7F. */
  predicate IsSpace(c: char)
  {
    || ('\t' <= c <= '\r')
    || c == ' '
    || c == '\U{0085}'
    || c == '\U{00A0}'
    || c == '\U{1680}'
    || ('\U{2000}' <= c <= '\U{200A}')
    || c == '\U{2028}'
    || c == '\U{2029}'
    || c == '\U{202F}'
    || c == '\U{205F}'
    || c == '\U{3000}'
  }

  /** Neither the first nor the last character is white space. */
  predicate Trimmed(s: string)
  {
    s == [] || (!IsSpace(s[0]) && !IsSpace(s[|s| - 1]))
  }

  predicate AllSpace(s: string)
  {
    forall i :: 0 <= i < |s| ==> IsSpace(s[i])
  }

  /** Drops the leading white space: the result is a suffix of `s`, and
      exactly the white space in front of it was removed. */
  function TrimLeft(s: string): (r: string)
    ensures |r| <= |s| && r == s[|s| - |r|..]
    ensures forall i :: 0 <= i < |s| - |r| ==> IsSpace(s[i])
    ensures r != [] ==> !IsSpace(r[0])
  {
    if s != [] && IsSpace(s[0]) then
      var t := TrimLeft(s[1..]);
      assert s[1..][|s| - 1 - |t|..] == s[|s| - |t|..];
      assert forall i :: 1 <= i < |s| - |t| ==> s[1..][i - 1] == s[i];
      t
    else s
  }

  /** Drops the trailing white space: the result is a prefix of `s`, and
      exactly the white space behind it was removed. */
  function TrimRight(s: string): (r: string)
    ensures |r| <= |s| && r == s[..|r|]
    ensures forall i :: |r| <= i < |s| ==> IsSpace(s[i])
    ensures r != [] ==> !IsSpace(r[|r| - 1])
  {
    if s != [] && IsSpace(s[|s| - 1]) then
      var t := TrimRight(s[..|s| - 1]);
      assert s[..|s| - 1][..|t|] == s[..|t|];
      assert forall i :: |t| <= i < |s| - 1 ==> s[..|s| - 1][i] == s[i];
      t
    else s
  }

  /** Go's `strings.TrimSpace`. */
  function TrimSpace(s: string): (r: string)
    ensures |r| <= |s|
    ensures Trimmed(r)
    ensures Trimmed(s) ==> r == s
    ensures r == [] <==> AllSpace(s)
  {
    TrimRight(TrimLeft(s))
  }

  /** What `TrimLeft` drops is white space. */
  lemma TrimLeftDropsSpace(s: string)
    ensures AllSpace(s[..|s| - |TrimLeft(s)|])
  {
    var a := |s| - |TrimLeft(s)|;
    forall i | 0 <= i < a ensures IsSpace(s[..a][i]) {
      assert s[..a][i] == s[i];
    }
  }

  /** What `TrimRight` drops is white space. */
  lemma TrimRightDropsSpace(s: string)
    ensures AllSpace(s[|TrimRight(s)|..])
  {
    var b := |TrimRight(s)|;
    forall i | 0 <= i < |s| - b ensures IsSpace(s[b..][i]) {
      assert s[b..][i] == s[b + i];
    }
  }

  /** What `TrimSpace` keeps: the part of `s` between its leading and its
      trailing white space. */
  lemma TrimSpaceInfix(s: string)
    ensures exists a, b :: 0 <= a <= b <= |s| && TrimSpace(s) == s[a..b]
                           && AllSpace(s[..a]) && AllSpace(s[b..])
  {
    var l := TrimLeft(s);
    var r := TrimRight(l);
    var a := |s| - |l|;
    var b := a + |r|;
    TrimLeftDropsSpace(s);
    TrimRightDropsSpace(l);
    assert l == s[a..];
    assert s[b..] == l[|r|..];
    assert r == s[a..b];
    assert 0 <= a <= b <= |s| && TrimSpace(s) == s[a..b] && AllSpace(s[..a]) && AllSpace(s[b..]);
  }

  /** Go's `strings.HasPrefix`. */
  predicate HasPrefix(s: string, prefix: string)
  {
    |prefix| <= |s| && s[..|prefix|] == prefix
  }

  /** Go's `strings.Join` with a one-character separator. */
  function Join(parts: seq<string>, sep: char): string
  {
    if |parts| == 0 then []
    else if |parts| == 1 then parts[0]
    else parts[0] + [sep] + Join(parts[1..], sep)
  }

  /** Go's `strings.Split` with a one-character separator: the pieces
      between the separators, never an empty list (`Split("", ',')` is
      `[""]`), none of them holding the separator, and joining them back
      gives the input. */
  function Split(s: string, sep: char): (r: seq<string>)
    ensures |r| >= 1
    ensures forall i :: 0 <= i < |r| ==> sep !in r[i]
    ensures Join(r, sep) == s
  {
    if s == [] then [[]]
    else
      var rest := Split(s[1..], sep);
      if s[0] == sep then
        assert s == [sep] + s[1..];
        [[]] + rest
      else
        var r := [[s[0]] + rest[0]] + rest[1..];
        assert r[1..] == rest[1..];
        assert s == [s[0]] + s[1..];
        r
  }

  /** Splitting a joined list of separator-free pieces gives the pieces back. */
  lemma {:induction false} SplitJoin(parts: seq<string>, sep: char)
    requires |parts| >= 1
    requires forall i :: 0 <= i < |parts| ==> sep !in parts[i]
    ensures Split(Join(parts, sep), sep) == parts
  {
    if |parts| == 1 {
      SplitFree(parts[0], [], sep);
      assert parts[0] + [] == parts[0];
    } else {
      var tail := [sep] + Join(parts[1..], sep);
      SplitJoin(parts[1..], sep);
      SplitFree(parts[0], tail, sep);
      assert Join(parts, sep) == parts[0] + tail;
      assert tail[1..] == Join(parts[1..], sep);
      var t := Split(tail, sep);
      assert t == [[]] + parts[1..];
      assert t[0] == [] && t[1..] == parts[1..];
      assert parts[0] + [] == parts[0];
      assert [parts[0]] + parts[1..] == parts;
    }
  }

  /** A separator-free prefix becomes the front of the first piece. */
  lemma {:induction false} SplitFree(a: string, b: string, sep: char)
    requires sep !in a
    ensures var r := Split(a + b, sep);
            var t := Split(b, sep);
            r == [a + t[0]] + t[1..]
  {
    if a == [] {
      assert a + b == b;
      assert [] + Split(b, sep)[0] == Split(b, sep)[0];
      assert [Split(b, sep)[0]] + Split(b, sep)[1..] == Split(b, sep);
    } else {
      SplitFree(a[1..], b, sep);
      assert (a + b)[1..] == a[1..] + b;
      assert (a + b)[0] == a[0];
      assert [a[0]] + (a[1..] + Split(b, sep)[0]) == a + Split(b, sep)[0];
    }
  }

  /** Lower-cases one character the way Go's `unicode.ToLower` does for
      every character whose lower case is ASCII: the letters A-Z, the
      dotted capital I (U+0130) and the Kelvin sign (U+212A). Other
      characters are returned unchanged. */
  function LowerRune(c: char): char
  {
    if 'A' <= c <= 'Z' then (c as int + 32) as char
    else if c == '\U{0130}' then 'i'
    else if c == '\U{212A}' then 'k'
    else c
  }

  /** Go's `strings.ToLower`, character by character. */
  function ToLower(s: string): (r: string)
    ensures |r| == |s|
    ensures forall i :: 0 <= i < |s| ==> r[i] == LowerRune(s[i])
  {
    seq(|s|, i requires 0 <= i < |s| => LowerRune(s[i]))
  }

  /** Lower-casing leaves no ASCII capital behind and keeps every character
      that has no lower case. */
  lemma LowerNoCapitals(s: string)
    ensures forall i :: 0 <= i < |s| ==> !('A' <= ToLower(s)[i] <= 'Z')
    ensures forall i :: 0 <= i < |s| && !('A' <= s[i] <= 'Z') && s[i] != '\U{0130}' && s[i] != '\U{212A}'
              ==> ToLower(s)[i] == s[i]
  {
  }

  /** Lower-casing neither creates nor removes white space. */
  lemma LowerKeepsSpace(c: char)
    ensures IsSpace(LowerRune(c)) <==> IsSpace(c)
  {
  }

  /** Lower-casing a trimmed string keeps it trimmed. */
  lemma LowerKeepsTrimmed(t: string)
    requires Trimmed(t)
    ensures Trimmed(ToLower(t))
  {
    if t != [] {
      LowerKeepsSpace(t[0]);
      LowerKeepsSpace(t[|t| - 1]);
    }
  }

  /** Lower-casing twice is lower-casing once. */
  lemma LowerTwice(t: string)
    ensures ToLower(ToLower(t)) == ToLower(t)
  {
    var l := ToLower(t);
    assert forall i :: 0 <= i < |l| ==> ToLower(l)[i] == l[i];
  }
}


=== FILE: Switching.dfy ===
/**
 The switch decision of `switchInputSource` (main.go:380-421) as a pure
 function: the layout the OS reports as active (`getCurrentLayout`) is an
 input, the layout handed to `setLayout` is the `target` of the result, and
 the global `previousLayout` is threaded through explicitly.
 */
module Switching {
  import opened Layouts

  /** What one call decides: the layout to select and the new value of
      `previousLayout`. */
  datatype Decision = Decision(target: string, previous: string)

  /** The next layout in list order: the one after `current`, wrapping at the
      end, or the first layout when `current` is not in the list. */
  function Successor(layouts: seq<string>, current: string): (r: string)
    requires |layouts| > 0
    ensures r in layouts
    ensures current !in layouts ==> r == layouts[0]
  {
    var idx := FindIndex(layouts, current);
    if idx == -1 then layouts[0] else layouts[Next(idx, |layouts|)]
  }

  /** The long-press candidate: the next layout, stepping once more when
      that one is `previous` and more than two layouts are configured. */
  function SkipPrevious(layouts: seq<string>, current: string, previous: string): (r: string)
    requires |layouts| > 0
    ensures r in layouts
    ensures current !in layouts ==> r == layouts[0]
    // The successor, unless it is `previous` and there is a third layout to go to.
    ensures current in layouts && (Successor(layouts, current) != previous || |layouts| <= 2)
            ==> r == Successor(layouts, current)
    // Otherwise the layout one position further on.
    ensures current in layouts && Successor(layouts, current) == previous && |layouts| > 2
            ==> r == layouts[Next(Next(FindIndex(layouts, current), |layouts|), |layouts|)]
  {
    var idx := FindIndex(layouts, current);
    if idx == -1 then layouts[0]
    else
      var next := Next(idx, |layouts|);
      var next' := if layouts[next] == previous && |layouts| > 2 then Next(next, |layouts|) else next;
      layouts[next']
  }

  /** `switchInputSource(longPress)` with `cycleMode`, `layouts` and
      `previousLayout` passed in. `layouts[0]` is read on the not-found
      path, so the list must not be empty. */
  function SwitchInputSource(layouts: seq<string>, current: string, previous: string,
                             cycleMode: bool, longPress: bool): (d: Decision)
    requires |layouts| > 0
    // Cycle mode leaves the history alone; both MRU paths record the layout left.
    ensures cycleMode ==> d.previous == previous
    ensures !cycleMode ==> d.previous == current
    // The target is a configured layout, except for an MRU short press
    // returning to the remembered layout.
    ensures d.target in layouts || (!cycleMode && !longPress && d.target == previous)
    // An MRU short press returns to a remembered layout other than the current one.
    ensures !cycleMode && !longPress && previous != "" && previous != current ==> d.target == previous
    // Every path falls back to the first layout when the active one is unknown,
    // unless an MRU short press has somewhere to return to.
    ensures current !in layouts && (cycleMode || longPress || previous == "" || previous == current)
            ==> d.target == layouts[0]
    // Cycle mode, and an MRU short press with nothing to return to, advance
    // to the next layout; an MRU long press takes the skipping candidate.
    ensures cycleMode || (!longPress && (previous == "" || previous == current))
            ==> d.target == Successor(layouts, current)
    ensures !cycleMode && longPress ==> d.target == SkipPrevious(layouts, current, previous)
  {
    if cycleMode then
      Decision(Successor(layouts, current), previous)
    else if longPress then
      Decision(SkipPrevious(layouts, current, previous), current)
    else if previous == "" || previous == current then
      Decision(Successor(layouts, current), current)
    else
      Decision(previous, current)
  }

  /** The position after `i` in a list of `n`, wrapping to 0 at the end. */
  function Next(i: nat, n: nat): (j: nat)
    requires i < n
    ensures j < n
  {
    if i + 1 == n then 0 else i + 1
  }

  /** `Next` is the source's `(i + 1) % n`. */
  lemma NextIsMod(i: nat, n: nat)
    requires i < n
    ensures Next(i, n) == (i + 1) % n
  {
  }

  /** The successor of the layout at `i`, where it first occurs, is the one
      at the next position, wrapping around. A repeated layout always moves
      on from its first occurrence, so a list without repetitions meets the
      requirement at every position (`DistinctFirst`). */
  lemma SuccessorAt(layouts: seq<string>, i: nat)
    requires i < |layouts| && layouts[i] !in layouts[..i]
    ensures Successor(layouts, layouts[i]) == layouts[Next(i, |layouts|)]
  {
    FindIndexFirst(layouts, i);
  }

  /** The layout reached from `current` after `k` cycle-mode presses, each
      one committed before the next. */
  function CycleN(layouts: seq<string>, current: string, k: nat): string
    requires |layouts| > 0
    decreases k
  {
    if k == 0 then current
    else CycleN(layouts, SwitchInputSource(layouts, current, "", true, false).target, k - 1)
  }

  /** `a + b` presses are `a` presses followed by `b` presses. */
  lemma {:induction false} CycleCompose(layouts: seq<string>, current: string, a: nat, b: nat)
    requires |layouts| > 0
    ensures CycleN(layouts, current, a + b) == CycleN(layouts, CycleN(layouts, current, a), b)
    decreases a
  {
    if a > 0 {
      var next := SwitchInputSource(layouts, current, "", true, false).target;
      CycleCompose(layouts, next, a - 1, b);
    }
  }

  /** Before the end of the list, `k` presses from position `i` land on
      position `i + k`. */
  lemma {:induction false} CycleSteps(layouts: seq<string>, i: nat, k: nat)
    requires Distinct(layouts) && i + k < |layouts|
    ensures CycleN(layouts, layouts[i], k) == layouts[i + k]
    decreases k
  {
    if k > 0 {
      DistinctFirst(layouts, i);
      SuccessorAt(layouts, i);
      CycleSteps(layouts, i + 1, k - 1);
    }
  }

  /** One press is one step of `Successor`. */
  lemma CycleOne(layouts: seq<string>, current: string)
    requires |layouts| > 0
    ensures CycleN(layouts, current, 1) == Successor(layouts, current)
  {
  }

  /** From position `i`, the presses that reach the end of the list wrap
      around to the first layout. */
  lemma {:induction false} CycleWraps(layouts: seq<string>, i: nat)
    requires Distinct(layouts) && i < |layouts|
    ensures CycleN(layouts, layouts[i], |layouts| - i) == layouts[0]
  {
    var n := |layouts|;
    var k := n - 1 - i;
    CycleCompose(layouts, layouts[i], k, 1);
    assert k + 1 == n - i;
    CycleSteps(layouts, i, k);
    assert CycleN(layouts, layouts[i], k) == layouts[n - 1];
    CycleOne(layouts, layouts[n - 1]);
    DistinctFirst(layouts, n - 1);
    SuccessorAt(layouts, n - 1);
  }

  /** Full-cycle closure: as many cycle-mode presses as there are layouts
      return to the starting layout. */
  lemma {:induction false} CycleClosure(layouts: seq<string>, i: nat)
    requires Distinct(layouts) && i < |layouts|
    ensures CycleN(layouts, layouts[i], |layouts|) == layouts[i]
  {
    var n := |layouts|;
    var a := n - i;
    CycleCompose(layouts, layouts[i], a, i);
    assert a + i == n;
    CycleWraps(layouts, i);
    var wrapped := CycleN(layouts, layouts[i], a);
    assert wrapped == layouts[0];
    CycleSteps(layouts, 0, i);
    assert CycleN(layouts, wrapped, i) == layouts[i];
  }

  /** Without the distinctness the source does not enforce, closure fails:
      with a repeated layout the cycle never revisits the second copy. */
  lemma CycleClosureNeedsDistinct()
    ensures CycleN(["A", "B", "A"], "A", 3) == "B"
  {
    var l := ["A", "B", "A"];
    assert SwitchInputSource(l, "A", "", true, false).target == "B";
    assert SwitchInputSource(l, "B", "", true, false).target == "A";
  }

  /** An MRU short press always leaves the current layout, provided the list
      has two or more distinct layouts. */
  lemma ShortPressMoves(layouts: seq<string>, current: string, previous: string)
    requires Distinct(layouts) && |layouts| >= 2
    ensures SwitchInputSource(layouts, current, previous, false, false).target != current
  {
    if current in layouts && (previous == "" || previous == current) {
      var i := FindIndex(layouts, current);
      DistinctFirst(layouts, i);
      SuccessorAt(layouts, i);
    }
  }

  /** MRU short press toggles: a second short press, made from the layout the
      first one selected, goes back to where the first one started and
      remembers the layout in between. */
  lemma ShortPressToggles(layouts: seq<string>, current: string, previous: string)
    requires Distinct(layouts) && |layouts| >= 2
    requires current != ""
    ensures var d1 := SwitchInputSource(layouts, current, previous, false, false);
            var d2 := SwitchInputSource(layouts, d1.target, d1.previous, false, false);
            d2.target == current && d2.previous == d1.target
  {
    ShortPressMoves(layouts, current, previous);
  }

  /** With three or more distinct layouts and the active one among them, a
      long press selects neither the remembered layout nor the current one. */
  lemma LongPressThirdLayout(layouts: seq<string>, current: string, previous: string)
    requires Distinct(layouts) && |layouts| > 2 && current in layouts
    ensures var d := SwitchInputSource(layouts, current, previous, false, true);
            d.target != previous && d.target != current && d.previous == current
  {
    var i := FindIndex(layouts, current);
    var n := |layouts|;
    var next := Next(i, n);
    if layouts[next] == previous {
      var next' := Next(next, n);
      assert next' != i;
    }
  }

  /** With exactly two distinct layouts a long press selects the other one,
      whatever is remembered. */
  lemma LongPressTwoLayouts(layouts: seq<string>, previous: string, i: nat)
    requires Distinct(layouts) && |layouts| == 2 && i < 2
    ensures SwitchInputSource(layouts, layouts[i], previous, false, true).target == layouts[1 - i]
  {
    FindIndexDistinct(layouts, i);
  }

  /** The long-press position: from position `i`, the first occurrence of
      the active layout, the next position, or the one after it when the
      next holds the remembered layout and more than two layouts are
      configured. */
  lemma LongPressPosition(layouts: seq<string>, previous: string, i: nat)
    requires i < |layouts| && layouts[i] !in layouts[..i]
    ensures var n := |layouts|;
            var j := Next(i, n);
            SwitchInputSource(layouts, layouts[i], previous, false, true).target
            == if layouts[j] == previous && n > 2 then layouts[Next(j, n)] else layouts[j]
  {
    SuccessorAt(layouts, i);
    FindIndexFirst(layouts, i);
  }

  /** The MRU short-press fallback: with nothing else remembered, the
      first occurrence `i` of the active layout goes to the next position. */
  lemma ShortPressFallbackPosition(layouts: seq<string>, previous: string, i: nat)
    requires i < |layouts| && layouts[i] !in layouts[..i]
    requires previous == "" || previous == layouts[i]
    ensures SwitchInputSource(layouts, layouts[i], previous, false, false)
            == Decision(layouts[Next(i, |layouts|)], layouts[i])
  {
    SuccessorAt(layouts, i);
  }

  /** Scenario: L = [A, B, A, C, D] in cycle mode with A active; the press
      moves on from the first A and selects B, never C. */
  lemma ScenarioRepeatedLayout()
    ensures SwitchInputSource(["A", "B", "A", "C", "D"], "A", "", true, false).target == "B"
  {
    var l := ["A", "B", "A", "C", "D"];
    assert l[0] == "A";
    SuccessorAt(l, 0);
  }

  /** Scenario: L = [A, B, C] in MRU mode with A active and nothing
      remembered; a short press selects B. */
  lemma ScenarioShortFallback()
    ensures SwitchInputSource(["A", "B", "C"], "A", "", false, false).target == "B"
  {
    assert FindIndex(["A", "B", "C"], "A") == 0;
  }

  /** Scenario: L = [A, B, C, D] in MRU mode with A active and C remembered;
      a long press selects B, the next layout, since it is not C. */
  lemma ScenarioLongPressNext()
    ensures SwitchInputSource(["A", "B", "C", "D"], "A", "C", false, true).target == "B"
  {
    assert FindIndex(["A", "B", "C", "D"], "A") == 0;
  }

  /** Scenario: L = [A, B, C] in MRU mode with A active and B remembered; a
      long press skips B and selects C. */
  lemma ScenarioLongPressSkips()
    ensures SwitchInputSource(["A", "B", "C"], "A", "B", false, true).target == "C"
  {
    assert FindIndex(["A", "B", "C"], "A") == 0;
  }

  /** When the active layout is not in the list, a long press falls back to
      the first layout without the skip, so it can select the remembered
      layout even with three layouts configured. */
  lemma LongPressUnknownCurrent()
    ensures SwitchInputSource(["X", "Y", "Z"], "Other", "X", false, true).target == "X"
  {
  }

  /** The startup seed `previousLayout = layouts[1]`: from the first layout
      the very first short press selects the second one. */
  lemma SeededFirstShortPress(layouts: seq<string>)
    requires Distinct(layouts) && |layouts| >= 2
    ensures SwitchInputSource(layouts, layouts[0], layouts[1], false, false)
            == Decision(layouts[1], layouts[0])
  {
  }

  /** Scenario: L = [X, Y, Z] in MRU mode with Y remembered and X active; a
      short press selects Y and remembers X. */
  lemma ScenarioMruShort()
    ensures SwitchInputSource(["X", "Y", "Z"], "X", "Y", false, false) == Decision("Y", "X")
  {
  }

  /** Scenario: L = [X, Y, Z] in cycle mode with Z active wraps to X. */
  lemma ScenarioCycleWraps()
    ensures SwitchInputSource(["X", "Y", "Z"], "Z", "Y", true, false).target == "X"
  {
    assert FindIndex(["X", "Y", "Z"], "Z") == 2;
  }
}

=== FILE: Wrappers.dfy ===
/** Optional values, standing for Go's nil and "not set" values. */
module Wrappers {

  /** `None` plays the role of Go's nil or an absent configuration layer. */
  datatype Option<+T> = None | Some(value: T)
}
